=== FILE: README.md ===
# Sequential sampling and string helpers of libbs, in Dafny

This project models three parts of the libbs C++ library and proves properties of the model.

- **Vitter's Algorithm A** (`vitter_a`). This is sequential sampling without replacement: it draws `n` of the indices `[0, N)` in increasing order.
- **Vitter's Algorithm D** (`vitter_d`). It uses a rejection fast path (steps D2–D4) while `threshold < N`. After that it hands the work to an embedded `vitter_a`. The last sample has a direct formula.
- **The string helpers** `str_startswith`, `str_endswith` and `str_split`.

The modules are:
- `Common`: error outcomes, 64-bit wrap-around, the variate stream and the shape of a finished sample.
- `VitterA`, `VitterD` and `StrManip`: one per source file.

A sampler is an immutable record holding the class's fields. Every operation returns the record the object would hold afterwards.

The random generator `global_uniform_unit_db()` becomes a finite stream of draws, each strictly inside `(0, 1)`. Each call of the generator consumes the head of the stream. When the stream runs out, the model ends with its own error `OutOfVariates`; the source never runs out. The same limit makes D's `while (true)` rejection loops terminate in the model.

`exp(log(u) / k)`, the k-th root of `u`, is a parameter `root` of the D methods. The model assumes only two things about it:
- it is positive on positive arguments;
- it maps the open unit interval into itself.

All other arithmetic is exact. `double` values are `real`s. A `double` stored into a `uint64_t` is truncated with `.Floor`. Every `uint64_t` result that can leave `[0, 2^64)` goes through `Wrap`, reduction modulo 2^64.

Some things the model establishes about the source:
- **A whole session (`Run`).** Exactly `n` indices come out, strictly increasing.
  - For Algorithm A they are all inside the population, and sampling the whole population yields `0, 1, …, N-1`.
  - For Algorithm D all but the last are inside the population, and the last is at most `N`. The last one is inside too, and the whole population yields `0, 1, …, N-1`, exactly when the final `V'` is below one (see below). For a session with one sample, or one that starts on Algorithm A, the final `V'` is the constructor's `root(u, n)` of the first draw, so it is below one and every index is inside.
  - Algorithm A's session fails only when `n > N` or the draws run out. Algorithm D's session surely succeeds when `n <= 1`, given one draw, and when it starts on Algorithm A (the 64-bit value of `14 n` is at least `N`), given `n` draws.
- **Invariants of each step.** `gen_skip` and `next` keep these:
  - `top == N - n` (Algorithm A);
  - `quant1 == N - n + 1` and `threshold == 14 n` on D's fast path;
  - `current + N == N0` while samples remain.
- **Step A2.** The skip is the number of partial products above the draw, characterised in both directions. The running ratio lies in `[0, 1]`, never increases, and reaches 0 at `top`.
- **The D4 product loop.** Every divisor is at least one. It runs `S - 1` times (none when `S = 0`) or `n - 2` times. It computes `y` times an independently defined product, and it never lowers `y`.
- **Fallback to Algorithm A.** It is permanent. The embedded `vitter_a` is constructed exactly on a call that finds `initA` false, and `initA` is never cleared afterwards, so a session constructs it at most once. `threshold` is left alone and the parent's counters mirror the embedded sampler's.
- **Wrap-around of `quant1`.** `quant1 - S` in the last sample's `update_variables` never wraps, not even after the fallback. `quant1` stays at least `N - n + 1`, because the fallback leaves it stale but larger.
- **The last sample when `V' == 1`.** `V' == 1` is possible: D3 accepts when `lhs <= rhs` and sets `V' = lhs / rhs`. For that last sample, `N - S - 1` wraps and the index equals the population size.
- **How the model handles it.** It does not assume `V' < 1`. `VitterD.Run` returns the final `V'` as `lastRoot`. It proves that the last index is at most `N`, and inside the population exactly when `lastRoot < 1`. Off the fast path `V'` is never redrawn, so in a session with one sample or one that starts on Algorithm A, `lastRoot` is the constructor's `root(u, n)` of the first draw and lies below one.
- **String helpers.**
  - `StartsWith` is the prefix test and `EndsWith` the suffix test, both in both directions.
  - `Split` yields the empty list for the empty string. For any other string it yields the delimiter-separated pieces:
    - there is one more piece than there are delimiters;
    - no piece contains the delimiter;
    - joining the pieces gives back the string;
    - the pieces are the only delimiter-free list with that property.
- **The `str_endswith` doc comment.** In `src/str_manip.h` it says "starts with". The code tests for a suffix, and the model follows the code.

## Model

| member | source | states |
|---|---|---|
| Common.Wrap | src/vitter_d.h:51-58 | a `uint64_t` result lies in `[0, 2^64)` and equals the exact value when that is in range |
| Common.WrapSub | src/vitter_d.cpp:27 | subtracting from a wrapped `threshold` equals wrapping the exact difference, so `threshold -= 14` keeps `threshold == 14 n` modulo 2^64 |
| Common.FullSampleIsIdentity | test/src/test_vitter_a.cpp:16-31 | a strictly increasing list of `N` indices below `N` is exactly `0, 1, …, N-1` |
| Common.ScaledFloor | src/vitter_a.cpp:51 | truncating `N * V` for `V` in `(0, 1]` gives a value in `[0, N]`, below `N` exactly when `V < 1` |
| VitterA.End | src/vitter_a.h:44 | until `end()` holds there is a candidate left to pick (`top < N`) |
| VitterA.Construct | src/vitter_a.cpp:9-15 | construction fails exactly when `n > N`; otherwise `N`, `n`, `current = 0` and `top = N - n`, a valid session start |
| VitterA.Quot | src/vitter_a.cpp:35-41 | every partial product of the A2 ratios `(top - k) / (N - k)` lies in `[0, 1]` |
| VitterA.Factor | src/vitter_a.cpp:41 | each factor `top / N` of the A2 product lies in `[0, 1]` |
| VitterA.QuotAtTop | src/vitter_a.cpp:36-42 | the running ratio is 0 once `top` has been counted down to 0 |
| VitterA.QuotNonIncreasing | src/vitter_a.cpp:36-42 | a later partial product is never larger than an earlier one |
| VitterA.QuotStaysBelow | src/vitter_a.cpp:36 | once the ratio is at or below the draw, every later one is too |
| VitterA.A2 | src/vitter_a.cpp:34-42 | the loop stops with `S <= top`, and a partial product exceeds `V` exactly for the indices below `S` |
| VitterA.GenSkip | src/vitter_a.cpp:24-55 | fails for `n == 0`. For `n > 1`: `S <= N - n`, `N` drops by `S + 1`, `top` by `S`, and `top == N - n` holds again. For `n == 1`: `S = floor(N V) < N` and only `n` changes |
| VitterA.Next | src/vitter_a.cpp:17-22 | the index `current + S` is at least `current` and below the session's population, `current` moves just past it, and `current + N == N0` is kept |
| VitterA.Run | test/src/test_vitter_a.cpp:16-31 | fails exactly when `n > N` or the draws run out; otherwise exactly `n` strictly increasing indices below `N`, the identity when `n == N` |
| VitterD.Construct | src/vitter_d.cpp:8-19 | fails when `n > N`; otherwise `quant1 = N - n + 1` and `threshold = 14 n` (both in 64-bit arithmetic), one draw consumed, a valid session start on the fast path |
| VitterD.UpdateVariables | src/vitter_d.cpp:21-28 | `N` drops by `S + 1`, `n` by one and `quant1` by `S` without wrapping when `S` is in range, and the fast-path bookkeeping `quant1 == N - n + 1`, `threshold == 14 n` is preserved |
| VitterD.End | src/vitter_d.h:45 | until `end()` holds there is a candidate left and `V'` lies in `(0, 1]` |
| VitterD.Proposal | src/vitter_d.cpp:48-49 | the D2 proposal `floor(N (1 - V'))`, for `N >= 1` and `V'` in `(0, 1]`, is one of the `N` remaining candidates |
| VitterD.ProposalRange | src/vitter_d.cpp:48 | `X = N (1 - V')` lies in `[0, N)`, so `N - X` is a positive divisor |
| VitterD.D2 | src/vitter_d.cpp:45-55 | the proposal accepted is the first one below `quant1`: the incoming `V'`'s own proposal when that is admissible, with `V'` unchanged and no draw consumed; otherwise every earlier proposal is at least `quant1` and the new `V'` is the root of the last draw consumed |
| VitterD.Fraction | src/vitter_d.cpp:80 | `div_as_double(top, bottom)` is at least one when `bottom <= top` |
| VitterD.RatioAtLeastOne | src/vitter_d.cpp:78-82 | the D4 product is at least one when each numerator is at least its denominator |
| VitterD.AccumulateIsRatio | src/vitter_d.cpp:78-82 | multiplying `y` factor by factor as the loop does gives `y` times the reference product |
| VitterD.RatioLoop | src/vitter_d.cpp:78-82 | the loop runs `top - limit` times with every divisor at least one, and yields `y` times the reference product |
| VitterD.D4Product | src/vitter_d.cpp:67-82 | in both cases of step D4 every divisor is at least one; the loop runs `S - 1` times (none when `S = 0`) or `n - 2` times; `y` is never lowered |
| VitterD.D3Y | src/vitter_d.cpp:56 | `y = u / quant2` is positive |
| VitterD.D3Rhs | src/vitter_d.cpp:59-60 | the right-hand side of the D3 test is positive |
| VitterD.FastPass | src/vitter_d.cpp:39-92 | an accepted skip is D2's proposal, unchanged by D3 and D4: `floor(N (1 - V'))` of the incoming `V'` when that is below `quant1`, otherwise of the root of one of the draws. It is below `quant1` and is followed by `update_variables` with a new `V'` in `(0, 1]`. A rejection yields a fresh `V'` in `(0, 1)` that is the root of one of the draws, and consumes draws |
| VitterD.FastPath | src/vitter_d.cpp:37-94 | the fast path returns a D2 proposal `floor(N (1 - V'))`, where `V'` is the sampler's current `V'` or the root of one of the draws, with `S < quant1`, hence `S <= N - n`. It applies `update_variables` and keeps the fast-path invariant |
| VitterD.Fallback | src/vitter_d.cpp:96-107 | constructs the embedded `vitter_a` exactly when `initA` is false; one built earlier is advanced, not replaced. The skip obeys `S <= N - n`. `threshold`, `quant1` and `V'` are unchanged, and the parent's `N` and `n` equal the embedded sampler's |
| VitterD.LastSkip | src/vitter_d.cpp:108-113 | `S = floor(N V')`, below `N` exactly when `V' < 1`; `quant1 - S` does not wrap |
| VitterD.GenSkip | src/vitter_d.cpp:30-114 | fails for `n == 0`; keeps the invariant; `S <= N - n` with samples to spare; the switch to Algorithm A is taken exactly when `threshold >= N` and is permanent, with `threshold` and `V'` unchanged |
| VitterD.Emit | src/vitter_d.cpp:118-120 | the index `current + S` does not wrap, leaves room for the samples still to come, and the sampler stays within the session; nothing but `current` changes |
| VitterD.Next | src/vitter_d.cpp:116-121 | the index is at least `current`; before the last sample it leaves room for the rest; the last index is `current + floor(N V')`, inside the population exactly when `V' < 1`; on Algorithm A a call consumes exactly one draw, keeps `V'` and stays on Algorithm A |
| VitterD.Run | test/src/test_vitter_d.cpp:16-31 | exactly `n` strictly increasing indices. All but the last are below `N` and the last is at most `N`; it is below `N` exactly when the final `V'` is below one. With one sample, or starting on Algorithm A, that `V'` is the constructor's `root(u, n)` of the first draw and so below one. When `n == N` and that `V'` is below one, the indices are the identity. The session succeeds for `n <= 1` given one draw, and for a session starting on Algorithm A (the 64-bit `14 n` at least `N`) given `n` draws |
| VitterD.Steps | test/src/test_vitter_d.cpp:16-31 | the calls of `next()` before the last give `n - 1` strictly increasing indices below `current` and leave one sample; on Algorithm A, `n - 1` draws are enough, and off the fast path `V'` is unchanged |
| StrManip.StartsWith | src/str_manip.cpp:7-26 | true exactly when `pattern` is a prefix of `str`; true for an empty pattern, false for one longer than `str` |
| StrManip.EndsWith | src/str_manip.cpp:28-48 | true exactly when `pattern` is a suffix of `str`; true for an empty pattern, false for one longer than `str` |
| StrManip.PiecesCount | src/str_manip.cpp:58-70 | there is one more piece than there are delimiters |
| StrManip.PiecesDelimiterFree | src/str_manip.cpp:58-66 | no piece contains the delimiter |
| StrManip.JoinPieces | src/str_manip.cpp:55-72 | joining the pieces with the delimiter gives back the string |
| StrManip.PiecesJoin | src/str_manip.cpp:55-72 | splitting the join of delimiter-free pieces gives back those pieces, so the split is the only such list |
| StrManip.PiecesOfDelimiterFree | src/str_manip.cpp:64-69 | a string without the delimiter is a single piece |
| StrManip.PiecesAppend | src/str_manip.cpp:58-70 | a delimiter followed by a delimiter-free tail adds that tail as the last piece |
| StrManip.PiecesPrepend | src/str_manip.cpp:58-70 | a delimiter-free head followed by a delimiter is the first piece |
| StrManip.EmptyPieces | src/str_manip.cpp:58-70 | a trailing delimiter yields a final empty piece, and two delimiters in a row enclose an empty piece |
| StrManip.Split | src/str_manip.cpp:50-73 | the empty string gives no pieces. Any other string gives its pieces: delimiters plus one of them, none containing the delimiter, and joined they give the string back |
| StrManip.TestFirstWords | test/src/test_str.cpp:37-40 | after the test sentence's first line, the first, third and fifth words are "Cyphus", "the" and "flame." |
| StrManip.TestLastWord | test/src/test_str.cpp:41 | a sentence ending in " hame." has "hame." as its last word |

## Left out

- Random number generation (`src/aux.cpp`) is a finite list of draws in `(0, 1)`. Claims about the distribution are out of scope:
  - that samples are uniform over subsets;
  - that A and D are equivalent;
  - D's expected constant cost.
- `OutOfVariates` exists only in the model. The source's generator never runs out. Every statement that holds "when the draws suffice" is conditional on this.
- Termination of D's `while (true)` loops is probabilistic in the source. In the model each pass consumes at least one draw, so the loops end when the draws do.
- `exp`, `log` and `double` rounding are not modelled. `exp(log(u) / k)` is the parameter `root`, constrained only as described above. So D3/D4 accept decisions are as nondeterministic as that parameter. A `double` result of `exp(log(u) / k)` that rounds to exactly 1.0 is therefore outside the model.
- `div_as_double` (declared in `src/aux.h`) is modelled as the exact quotient of its two counts.
- `_quant2` is not a field. The fast path reads it only while it equals `quant1 / N`, and the model recomputes it there. Its update on the last sample, a division by a possibly zero `N`, is not modelled.
- The cached `_S` is not kept in either sampler. It only holds the value `gen_skip` returns.
- A `vitter_d` starts with a default-constructed embedded `vitter_a`. The model represents that sampler with all counters zero. It is read only after it has been constructed.
- `vitter_d`'s constructor computes `exp(log(u) / 0)` when `n == 0`. The model takes that as `V' = 0`. The value is never read, because the session is already at `end()`.
- VitterD.Run: for a session that uses the fast path, the last index is proved inside the population only when the final `V'` is below one. The source does not ensure this (D3 may set `V' = lhs / rhs = 1`), so the model states the condition rather than assuming it.
- VitterD.Run: success is promised only for sessions with at most one sample, or ones that start on Algorithm A. A session on the fast path ends when D3 or D4 accepts, and those tests depend on the abstract `root`, so no number of draws is sure to be enough.
- `str_split_np` is declared in `src/str_manip.h` and not defined in `src/str_manip.cpp`; it is not modelled.
- StrManip.TestFirstWords and StrManip.TestLastWord do not evaluate the test's full nine-line sentence. They state the checked words for any sentence that starts with its first line or ends with its last word, which the test sentence does.
- Not modelled:
  - `histogram`, `desc_stats` and the epsilon comparisons (floating-point numerics);
  - `simple_sample` (sampling with replacement over library calls);
  - the `apps/` command-line programs (I/O and option parsing).

=== FILE: common.dfy ===
/** Definitions shared by the two samplers and the string helpers: the error
    outcomes, 64-bit unsigned wrap-around, the stream of uniform variates and
    the shape of a finished sample. */
module Common {

  /** The failures of the samplers. The source throws a `std::runtime_error`
      for the first two; the third belongs to the model alone: the source draws
      from an endless generator, the model from a finite stream of draws. */
  datatype Error =
    | InvalidSampleSize    // construction with n > N
    | EmptySampleRequest   // gen_skip with n == 0
    | OutOfVariates        // the stream of draws ran out before the step finished

  datatype Result<T> = Ok(value: T) | Err(error: Error)

  /** 2^64: the counters of both samplers are `uint64_t`. */
  const Modulus: nat := 0x1_0000_0000_0000_0000

  /** The value a `uint64_t` holds after an assignment of the exact value `x`. */
  function Wrap(x: int): (r: nat)
    ensures r < Modulus
    ensures 0 <= x < Modulus ==> r == x
  {
    x % Modulus
  }

  /** Subtracting after a wrap-around is the same as wrapping once at the end. */
  lemma WrapSub(a: int, b: int)
    ensures Wrap(Wrap(a) - b) == Wrap(a - b)
  {
    var q := a / Modulus;
    assert a == q * Modulus + Wrap(a);
    assert a - b == (Wrap(a) - b) + q * Modulus;
  }

  /** A draw of the variate source: strictly inside the open unit interval. */
  predicate Unit(v: real) {
    0.0 < v < 1.0
  }

  predicate AllUnit(ds: seq<real>) {
    forall i :: 0 <= i < |ds| ==> Unit(ds[i])
  }

  /** `p` is a suffix of `s`. */
  predicate IsSuffix<T(==)>(p: seq<T>, s: seq<T>) {
    |p| <= |s| && s[|s| - |p|..] == p
  }

  lemma SuffixOfSuffix<T>(a: seq<T>, b: seq<T>, c: seq<T>)
    requires IsSuffix(a, b) && IsSuffix(b, c)
    ensures IsSuffix(a, c)
  {
    assert c[|c| - |a|..] == c[|c| - |b|..][|b| - |a|..];
  }

  /** Strictly increasing, hence free of duplicates. */
  predicate Increasing(s: seq<nat>) {
    forall i, j :: 0 <= i < j < |s| ==> s[i] < s[j]
  }

  /** A strictly increasing sequence has at least `i` values below its `i`-th. */
  lemma {:induction false} AtLeastIndex(s: seq<nat>, i: nat)
    requires Increasing(s) && i < |s|
    ensures s[i] >= i
    decreases i
  {
    if i > 0 {
      AtLeastIndex(s, i - 1);
    }
  }

  /** ... and, bounded by `N`, leaves room above it for the values after it. */
  lemma {:induction false} AtMostIndex(s: seq<nat>, N: nat, i: nat)
    requires Increasing(s) && i < |s|
    requires forall k :: 0 <= k < |s| ==> s[k] < N
    ensures s[i] + |s| - i <= N
    decreases |s| - i
  {
    if i < |s| - 1 {
      AtMostIndex(s, N, i + 1);
    }
  }

  /** Sampling the whole population yields every index, in order. */
  lemma FullSampleIsIdentity(s: seq<nat>, N: nat)
    requires Increasing(s) && |s| == N
    requires forall k :: 0 <= k < |s| ==> s[k] < N
    ensures forall k :: 0 <= k < |s| ==> s[k] == k
  {
    forall k | 0 <= k < |s|
      ensures s[k] == k
    {
      AtLeastIndex(s, k);
      AtMostIndex(s, N, k);
    }
  }

  /** `floor(N * v)`, the source's truncating cast, stays below `N` exactly when
      the factor is below one. */
  lemma ScaledFloor(N: nat, v: real)
    requires N >= 1 && 0.0 < v <= 1.0
    ensures 0 <= (N as real * v).Floor <= N
    ensures (N as real * v).Floor < N <==> v < 1.0
  {
    MulMonotone(N as real, v, 1.0);
    var x := N as real * v;
    if v < 1.0 {
      assert x < N as real;
    } else {
      assert x == N as real;
    }
  }

  /** Scaling by a non-negative factor keeps the order, strictly so for a
      positive one. */
  lemma MulMonotone(a: real, b: real, c: real)
    requires 0.0 <= a && b <= c
    ensures a * b <= a * c
    ensures 0.0 < a && b < c ==> a * b < a * c
  {
    assert a * c - a * b == a * (c - b);
  }
}

=== FILE: str_manip.dfy ===
/** The string helpers `str_startswith`, `str_endswith` and `str_split`. A
    string is a sequence of characters; the helpers compare and cut it
    character by character. */
module StrManip {
  import opened Common

  /** `str_startswith`: compares `pattern` with the start of `str`, front to
      back. True exactly when `pattern` is a prefix of `str`. */
  method StartsWith(str: string, pattern: string) returns (r: bool)
    ensures r <==> pattern <= str
    ensures |pattern| == 0 ==> r
    ensures |pattern| > |str| ==> !r
  {
    if |pattern| == 0 {
      return true;
    }
    if |pattern| > |str| {
      return false;
    }
    var i := 0;
    while i < |pattern|
      invariant 0 <= i <= |pattern|
      invariant forall k :: 0 <= k < i ==> pattern[k] == str[k]
    {
      if pattern[i] != str[i] {
        return false;
      }
      i := i + 1;
    }
    return true;
  }

  /** `str_endswith`: compares `pattern` with the end of `str`, back to
      front. True exactly when `pattern` is a suffix of `str`. */
  method EndsWith(str: string, pattern: string) returns (r: bool)
    ensures r <==> IsSuffix(pattern, str)
    ensures |pattern| == 0 ==> r
    ensures |pattern| > |str| ==> !r
  {
    if |pattern| == 0 {
      return true;
    }
    if |pattern| > |str| {
      return false;
    }
    var i, j := |pattern|, |str|;
    while i > 0
      invariant 0 <= i <= |pattern| && j == |str| - |pattern| + i
      invariant forall k :: i <= k < |pattern| ==> pattern[k] == str[|str| - |pattern| + k]
    {
      if pattern[i - 1] != str[j - 1] {
        return false;
      }
      i, j := i - 1, j - 1;
    }
    return true;
  }

  /** How often `c` occurs in `s`. */
  function Occurrences(s: string, c: char): nat {
    if |s| == 0 then 0
    else Occurrences(s[..|s| - 1], c) + (if s[|s| - 1] == c then 1 else 0)
  }

  /** The reference split: the maximal runs of `s` between occurrences of `c`,
      read left to right. Every occurrence of `c` closes a piece, so
      consecutive or trailing delimiters yield empty pieces, and the empty
      string is one empty piece. */
  function Pieces(s: string, c: char): (r: seq<string>)
    ensures |r| >= 1
  {
    if |s| == 0 then [""] else Extend(Pieces(s[..|s| - 1], c), s[|s| - 1], c)
  }

  /** One more character: the delimiter opens a new, empty piece; any other
      character lengthens the last piece. */
  function Extend(t: seq<string>, x: char, c: char): (r: seq<string>)
    requires |t| >= 1
    ensures |r| >= 1
  {
    if x == c then t + [""] else t[..|t| - 1] + [t[|t| - 1] + [x]]
  }

  /** `Pieces` of a string with one more character at the end. */
  lemma PiecesSnoc(u: string, x: char, c: char)
    ensures Pieces(u + [x], c) == Extend(Pieces(u, c), x, c)
  {
    assert (u + [x])[..|u|] == u;
  }

  /** Extending never touches the first piece. */
  lemma ExtendPrepend(w: string, p: seq<string>, x: char, c: char)
    requires |p| >= 1
    ensures Extend([w] + p, x, c) == [w] + Extend(p, x, c)
  {
    if x != c {
      var t := [w] + p;
      assert t[..|t| - 1] == [w] + p[..|p| - 1];
    }
  }

  /** The pieces written back out with `c` between consecutive ones. */
  function Join(ps: seq<string>, c: char): string
    requires |ps| >= 1
  {
    if |ps| == 1 then ps[0]
    else Join(ps[..|ps| - 1], c) + [c] + ps[|ps| - 1]
  }

  /** No piece contains `c`. */
  predicate DelimiterFree(ps: seq<string>, c: char) {
    forall k :: 0 <= k < |ps| ==> c !in ps[k]
  }

  /** One piece per delimiter, plus one. */
  lemma {:induction false} PiecesCount(s: string, c: char)
    ensures |Pieces(s, c)| == Occurrences(s, c) + 1
    decreases |s|
  {
    if |s| > 0 {
      PiecesCount(s[..|s| - 1], c);
    }
  }

  /** The delimiter never ends up inside a piece. */
  lemma {:induction false} PiecesDelimiterFree(s: string, c: char)
    ensures DelimiterFree(Pieces(s, c), c)
    decreases |s|
  {
    if |s| > 0 {
      PiecesDelimiterFree(s[..|s| - 1], c);
      var t := Pieces(s[..|s| - 1], c);
      if s[|s| - 1] != c {
        var w := t[|t| - 1] + [s[|s| - 1]];
        assert c !in t[|t| - 1];
        assert c !in w;
      }
    }
  }

  /** Extending the last piece extends the joined string by the same
      character. */
  lemma JoinExtendLast(ps: seq<string>, c: char, x: char)
    requires |ps| >= 1
    ensures Join(ps[..|ps| - 1] + [ps[|ps| - 1] + [x]], c) == Join(ps, c) + [x]
  {
    var qs := ps[..|ps| - 1] + [ps[|ps| - 1] + [x]];
    if |ps| > 1 {
      assert qs[..|qs| - 1] == ps[..|ps| - 1];
    }
  }

  /** Appending a piece appends the delimiter and the piece. */
  lemma JoinAppend(ps: seq<string>, w: string, c: char)
    requires |ps| >= 1
    ensures Join(ps + [w], c) == Join(ps, c) + [c] + w
  {
    assert (ps + [w])[..|ps|] == ps;
  }

  /** Joining the pieces gives back the string. */
  lemma {:induction false} JoinPieces(s: string, c: char)
    ensures Join(Pieces(s, c), c) == s
    decreases |s|
  {
    if |s| > 0 {
      var u := s[..|s| - 1];
      JoinPieces(u, c);
      assert s == u + [s[|s| - 1]];
      JoinPiecesStep(u, s[|s| - 1], c);
    }
  }

  /** One step of `JoinPieces`: the round trip survives one more character. */
  lemma JoinPiecesStep(u: string, x: char, c: char)
    requires Join(Pieces(u, c), c) == u
    ensures Join(Pieces(u + [x], c), c) == u + [x]
  {
    PiecesSnoc(u, x, c);
    var t := Pieces(u, c);
    if x == c {
      JoinAppend(t, "", c);
      assert t + [""] == Extend(t, x, c);
    } else {
      JoinExtendLast(t, c, x);
    }
  }

  /** A string without the delimiter is a single piece. */
  lemma {:induction false} PiecesOfDelimiterFree(w: string, c: char)
    requires c !in w
    ensures Pieces(w, c) == [w]
    decreases |w|
  {
    if |w| > 0 {
      PiecesOfDelimiterFree(w[..|w| - 1], c);
      assert w == w[..|w| - 1] + [w[|w| - 1]];
    }
  }

  /** After a delimiter, a delimiter-free tail is one more piece. */
  lemma {:induction false} PiecesAppend(u: string, w: string, c: char)
    requires c !in w
    ensures Pieces(u + [c] + w, c) == Pieces(u, c) + [w]
    decreases |w|
  {
    var s := u + [c] + w;
    if |w| == 0 {
      assert s[..|s| - 1] == u;
    } else {
      var w' := w[..|w| - 1];
      assert s[..|s| - 1] == u + [c] + w';
      PiecesAppend(u, w', c);
      assert w == w' + [w[|w| - 1]];
    }
  }

  /** A trailing delimiter closes a final empty piece, and two delimiters in a
      row enclose an empty piece. */
  lemma EmptyPieces(u: string, w: string, c: char)
    requires c !in w
    ensures Pieces(u + [c], c) == Pieces(u, c) + [""]
    ensures Pieces(u + [c, c] + w, c) == Pieces(u, c) + ["", w]
  {
    PiecesAppend(u, "", c);
    assert u + [c] + "" == u + [c];
    PiecesAppend(u + [c], w, c);
    assert u + [c, c] + w == (u + [c]) + [c] + w;
  }

  /** A delimiter-free head followed by a delimiter is the first piece. */
  lemma {:induction false} PiecesPrepend(w: string, v: string, c: char)
    requires c !in w
    ensures Pieces(w + [c] + v, c) == [w] + Pieces(v, c)
    decreases |v|
  {
    var s := w + [c] + v;
    if |v| == 0 {
      assert s[..|s| - 1] == w;
      PiecesOfDelimiterFree(w, c);
    } else {
      var v', x := v[..|v| - 1], v[|v| - 1];
      assert v == v' + [x];
      assert s == (w + [c] + v') + [x];
      PiecesSnoc(w + [c] + v', x, c);
      PiecesPrepend(w, v', c);
      ExtendPrepend(w, Pieces(v', c), x, c);
      PiecesSnoc(v', x, c);
    }
  }

  /** The converse round trip: a list of delimiter-free pieces is what
      splitting its join yields. With `JoinPieces`, `Pieces(s, c)` is the only
      delimiter-free list whose join is `s`. */
  lemma {:induction false} PiecesJoin(ps: seq<string>, c: char)
    requires |ps| >= 1 && DelimiterFree(ps, c)
    ensures Pieces(Join(ps, c), c) == ps
    decreases |ps|
  {
    if |ps| == 1 {
      PiecesOfDelimiterFree(ps[0], c);
    } else {
      var init := ps[..|ps| - 1];
      assert DelimiterFree(init, c);
      PiecesJoin(init, c);
      assert c !in ps[|ps| - 1];
      PiecesAppend(Join(init, c), ps[|ps| - 1], c);
      assert ps == init + [ps[|ps| - 1]];
    }
  }

  /** `str_split`: walks `str` once, closing the current word at every
      delimiter and once more at the last character. The empty string yields
      no words at all; any other string yields its pieces. */
  method Split(str: string, pattern: char) returns (r: seq<string>)
    ensures |str| == 0 ==> r == []
    ensures |str| > 0 ==> r == Pieces(str, pattern)
    ensures |str| > 0 ==> |r| == Occurrences(str, pattern) + 1
    ensures DelimiterFree(r, pattern)
    ensures |str| > 0 ==> |r| >= 1 && Join(r, pattern) == str
  {
    r := [];
    var word: string := "";
    var i := 0;
    while i < |str|
      invariant 0 <= i <= |str|
      invariant i == 0 ==> r == [] && word == ""
      invariant i < |str| ==> r + [word] == Pieces(str[..i], pattern)
      invariant 0 < i == |str| ==> r == Pieces(str, pattern)
    {
      var c := str[i];
      assert str[..i + 1][..i] == str[..i];
      if c == pattern {
        r := r + [word];
        word := "";
      } else {
        word := word + [c];
      }
      if i == |str| - 1 {
        assert str[..i + 1] == str;
        r := r + [word];
      }
      i := i + 1;
    }
    if |str| > 0 {
      PiecesCount(str, pattern);
      PiecesDelimiterFree(str, pattern);
      JoinPieces(str, pattern);
    }
  }

  /** The words the string test checks at the front: whatever follows the
      test sentence's first line, splitting at spaces yields "Cyphus" first,
      "the" third and "flame." fifth. */
  lemma TestFirstWords(rest: string)
    ensures var ws := Pieces("Cyphus bears the blue flame. " + rest, ' ');
      |ws| >= 6 && ws[0] == "Cyphus" && ws[2] == "the" && ws[4] == "flame."
  {
    FirstLine(rest);
    var r3 := "flame." + [' '] + rest;
    var r2 := "blue" + [' '] + r3;
    var r1 := "the" + [' '] + r2;
    var r0 := "bears" + [' '] + r1;
    PiecesPrepend("flame.", rest, ' ');
    PiecesPrepend("blue", r3, ' ');
    PiecesPrepend("the", r2, ' ');
    PiecesPrepend("bears", r1, ' ');
    PiecesPrepend("Cyphus", r0, ' ');
  }

  /** The first line of the test sentence, word by word. */
  lemma FirstLine(rest: string)
    ensures "Cyphus bears the blue flame. " + rest ==
      "Cyphus" + [' '] + ("bears" + [' '] + ("the" + [' '] + ("blue" + [' '] + ("flame." + [' '] + rest))))
  {
  }

  /** The word the string test checks at the back: whatever precedes it, a
      sentence ending in " hame." splits at spaces into a last word "hame.". */
  lemma TestLastWord(head: string)
    ensures var ws := Pieces(head + " hame.", ' ');
      ws[|ws| - 1] == "hame."
  {
    assert head + " hame." == head + [' '] + "hame.";
    PiecesAppend(head, "hame.", ' ');
  }
}

=== FILE: vitter_a.dfy ===
/** Vitter's Algorithm A (sequential sampling without replacement): the
    `vitter_a` class. A sampler is an immutable record; every operation returns
    the record the class would hold afterwards, and the stream of draws that
    remains. */
module VitterA {
  import opened Common

  /** The counters of one `vitter_a`: remaining population `N`, remaining
      samples `n`, next candidate index `current`, and `top`. The cached `_S`
      is not kept: it only holds the value `gen_skip` returns. */
  datatype Sampler = Sampler(N: nat, n: nat, current: nat, top: nat)

  /** The bookkeeping `gen_skip` maintains: `n <= N`, and `top == N - n`
      while samples remain (the last step lowers `n` alone). */
  predicate Consistent(a: Sampler) {
    && a.n <= a.N < Modulus
    && (a.n >= 1 ==> a.top == a.N - a.n)
  }

  /** A sampler within a session over the population `[0, N0)`: while samples
      remain, `current + N == N0`, so `current` is never past the population. */
  predicate Valid(a: Sampler, N0: nat) {
    && Consistent(a)
    && N0 < Modulus
    && a.N <= N0
    && (a.n >= 1 ==> a.current + a.N == N0)
    && (a.n == 0 ==> a.current <= N0)
  }

  /** `end()`: all samples have been produced. Until then there is a
      candidate left to pick: `top < N`. */
  function End(a: Sampler): (r: bool)
    ensures Consistent(a) && !r ==> a.top < a.N
  {
    a.n == 0
  }

  /** The constructor `vitter_a(N, n)`. */
  function Construct(N: nat, n: nat): (r: Result<Sampler>)
    requires N < Modulus
    ensures r.Err? <==> n > N
    ensures r.Err? ==> r.error == InvalidSampleSize
    ensures r.Ok? ==> Valid(r.value, N) && r.value.current == 0
    ensures r.Ok? ==> r.value.N == N && r.value.n == n && (End(r.value) <==> n == 0)
  {
    if n > N then Err(InvalidSampleSize) else Ok(Sampler(N, n, 0, N - n))
  }

  /** The running ratio of step A2 after `s` rejections: the product, over
      `k` in `[0, s]`, of `(top - k) / (N - k)`. It is the probability that
      more than `s` candidates are skipped, so it lies in the unit interval
      and shrinks with every rejection. */
  function Quot(top: nat, N: nat, s: nat): (q: real)
    requires s <= top < N
    ensures 0.0 <= q <= 1.0
  {
    if s == 0 then
      Factor(top, N, 0)
    else
      var p := Quot(top, N, s - 1);
      var f := Factor(top, N, s);
      ShrinkingFactor(p, f);
      p * f
  }

  /** The `s`-th factor of the running ratio: `top` and `N` after `s`
      decrements. */
  function Factor(top: nat, N: nat, s: nat): (f: real)
    requires s <= top < N
    ensures 0.0 <= f <= 1.0
  {
    assert 0.0 <= (top - s) as real / (N - s) as real <= 1.0;
    (top - s) as real / (N - s) as real
  }

  lemma ShrinkingFactor(q: real, f: real)
    requires 0.0 <= q && 0.0 <= f <= 1.0
    ensures 0.0 <= q * f <= q
  {
    assert q * f <= q * 1.0;
  }

  /** The recursive case of `Quot`, as a fact to call on. */
  lemma QuotUnfold(top: nat, N: nat, s: nat)
    requires 0 < s <= top < N
    ensures Quot(top, N, s) == Quot(top, N, s - 1) * Factor(top, N, s)
  {
  }

  /** The running ratio reaches zero once `top` has been counted down to
      zero, so A2 never skips past the last candidate. */
  lemma QuotAtTop(top: nat, N: nat)
    requires top < N
    ensures Quot(top, N, top) == 0.0
  {
    assert Factor(top, N, top) == 0.0;
    if top > 0 {
      QuotUnfold(top, N, top);
    }
  }

  /** Skipping more candidates is never more likely. */
  lemma {:induction false} QuotNonIncreasing(top: nat, N: nat, j: nat, k: nat)
    requires j <= k <= top < N
    ensures Quot(top, N, k) <= Quot(top, N, j)
    decreases k - j
  {
    if j < k {
      QuotNonIncreasing(top, N, j, k - 1);
      QuotUnfold(top, N, k);
      ShrinkingFactor(Quot(top, N, k - 1), Factor(top, N, k));
      assert Quot(top, N, k - 1) <= Quot(top, N, j);
      assert Quot(top, N, k) == Quot(top, N, k - 1) * Factor(top, N, k);
      assert Quot(top, N, k - 1) * Factor(top, N, k) <= Quot(top, N, k - 1);
    }
  }

  /** Once a partial product is at or below `v`, so are all later ones. */
  lemma QuotStaysBelow(top: nat, N: nat, v: real, s: nat)
    requires s <= top < N
    requires Quot(top, N, s) <= v
    ensures forall k :: s <= k <= top ==> Quot(top, N, k) <= v
  {
    forall k | s <= k <= top
      ensures Quot(top, N, k) <= v
    {
      QuotNonIncreasing(top, N, s, k);
    }
  }

  /** Step A2: lower the running ratio `top / N` one factor at a time until it
      no longer exceeds the draw `v`. The skip is the number of partial
      products above `v`. */
  method A2(top0: nat, N0: nat, v: real) returns (s: nat)
    requires top0 < N0
    requires Unit(v)
    ensures s <= top0
    ensures forall k :: 0 <= k <= top0 ==> (Quot(top0, N0, k) > v <==> k < s)
  {
    s := 0;
    var top := top0;
    var N := N0;
    var quot := top as real / N as real;
    while quot > v
      invariant s <= top0 && top == top0 - s && N == N0 - s
      invariant quot == Quot(top0, N0, s)
      invariant top == 0 ==> quot == 0.0
      invariant forall k :: 0 <= k < s ==> Quot(top0, N0, k) > v
      decreases top
    {
      s := s + 1;
      top := top - 1;
      N := N - 1;
      assert top as real / N as real == Factor(top0, N0, s);
      QuotUnfold(top0, N0, s);
      quot := quot * (top as real / N as real);
    }
    QuotStaysBelow(top0, N0, v, s);
  }

  /** What one call of `gen_skip` yields: the skip, the sampler afterwards and
      the draws not consumed. */
  datatype Skipped = Skipped(skip: nat, next: Sampler, rest: seq<real>)

  /** `gen_skip`: steps A1-A3 when more than one sample remains, the direct
      formula `floor(N * V)` for the last one. Each call consumes one draw. */
  method GenSkip(a: Sampler, draws: seq<real>) returns (r: Result<Skipped>)
    requires Consistent(a)
    requires AllUnit(draws)
    ensures a.n == 0 ==> r == Err(EmptySampleRequest)
    ensures a.n >= 1 && |draws| == 0 ==> r == Err(OutOfVariates)
    ensures a.n >= 1 && |draws| >= 1 ==> r.Ok? && r.value.rest == draws[1..]
    ensures r.Ok? ==> Consistent(r.value.next)
    ensures r.Ok? ==> r.value.next.n == a.n - 1 && r.value.next.current == a.current
    // A2-A3: the skip is the number of partial products above the draw,
    // so it never exceeds `top == N - n`; N drops by skip + 1 and top by skip
    ensures r.Ok? && a.n > 1 ==>
      && r.value.skip <= a.N - a.n
      && r.value.next.N == a.N - r.value.skip - 1
      && r.value.next.top == a.top - r.value.skip
      && (forall k :: 0 <= k <= a.top ==> (Quot(a.top, a.N, k) > draws[0] <==> k < r.value.skip))
    // the last sample: uniform over the N remaining candidates; only n changes
    ensures r.Ok? && a.n == 1 ==>
      && r.value.skip == (a.N as real * draws[0]).Floor
      && r.value.skip < a.N
      && r.value.next == a.(n := 0)
  {
    if a.n == 0 {
      return Err(EmptySampleRequest);
    }
    if |draws| == 0 {
      return Err(OutOfVariates);
    }
    var v := draws[0];
    if a.n > 1 {
      var s := A2(a.top, a.N, v);
      r := Ok(Skipped(s, Sampler(a.N - s - 1, a.n - 1, a.current, a.top - s), draws[1..]));
    } else {
      ScaledFloor(a.N, v);
      var s := (a.N as real * v).Floor;
      r := Ok(Skipped(s, a.(n := 0), draws[1..]));
    }
  }

  /** What one call of `next` yields. */
  datatype Emitted = Emitted(index: nat, next: Sampler, rest: seq<real>)

  /** `next()`: the index `current + S`, after which `current` moves past it. */
  method Next(a: Sampler, draws: seq<real>, ghost N0: nat) returns (r: Result<Emitted>)
    requires Valid(a, N0)
    requires AllUnit(draws)
    ensures a.n == 0 ==> r == Err(EmptySampleRequest)
    ensures a.n >= 1 && |draws| == 0 ==> r == Err(OutOfVariates)
    ensures a.n >= 1 && |draws| >= 1 ==> r.Ok? && r.value.rest == draws[1..]
    ensures r.Ok? ==> Valid(r.value.next, N0) && r.value.next.n == a.n - 1
    ensures r.Ok? ==> a.current <= r.value.index < N0 && r.value.next.current == r.value.index + 1
  {
    var g := GenSkip(a, draws);
    if g.Err? {
      return Err(g.error);
    }
    var index := Wrap(a.current + g.value.skip);
    r := Ok(Emitted(index, g.value.next.(current := Wrap(index + 1)), g.value.rest));
  }

  /** A whole session, as the test driver runs it: construct, then call
      `next()` until `end()`. Exactly `n0` indices come out, strictly
      increasing and inside the population; each step consumes one draw. */
  method Run(N0: nat, n0: nat, draws: seq<real>) returns (r: Result<seq<nat>>)
    requires N0 < Modulus
    requires AllUnit(draws)
    ensures r.Err? <==> n0 > N0 || |draws| < n0
    ensures n0 > N0 ==> r == Err(InvalidSampleSize)
    ensures n0 <= N0 && |draws| < n0 ==> r == Err(OutOfVariates)
    ensures r.Ok? ==> |r.value| == n0 && Increasing(r.value)
    ensures r.Ok? ==> forall i :: 0 <= i < |r.value| ==> r.value[i] < N0
    ensures r.Ok? && n0 == N0 ==> forall i :: 0 <= i < |r.value| ==> r.value[i] == i
  {
    var c := Construct(N0, n0);
    if c.Err? {
      return Err(c.error);
    }
    var a := c.value;
    var ds := draws;
    var out: seq<nat> := [];
    while !End(a)
      invariant Valid(a, N0)
      invariant |out| + a.n == n0
      invariant AllUnit(ds) && |ds| + |out| == |draws|
      invariant Increasing(out)
      invariant forall i :: 0 <= i < |out| ==> out[i] < a.current
      decreases a.n
    {
      var e := Next(a, ds, N0);
      if e.Err? {
        return Err(e.error);
      }
      out := out + [e.value.index];
      a := e.value.next;
      ds := e.value.rest;
    }
    if n0 == N0 {
      FullSampleIsIdentity(out, N0);
    }
    return Ok(out);
  }
}

=== FILE: vitter_d.dfy ===
/** Vitter's Algorithm D: the `vitter_d` class. The fast path (steps D2-D4)
    is a rejection loop against an analytic envelope; once `threshold >= N`
    the sampler finishes with an embedded Algorithm A sampler.

    `exp(log(u) / k)`, the only transcendental expression in the class, is the
    parameter `root`; everything else is computed in exact real arithmetic. */
module VitterD {
  import opened Common
  import VitterA

  /** `VITTER_ALPHA_INV`: the reciprocal of alpha = 0.07, truncated to 14. */
  const AlphaInv: nat := 14

  /** `root(u, k)` stands for `exp(log(u) / k)`, the k-th root of `u`. */
  type Root = (real, nat) -> real

  /** What the model relies on about the k-th root, for k >= 1: it is positive
      on positive arguments and maps the open unit interval into itself. */
  ghost predicate RootLike(root: Root) {
    forall x: real, k: nat :: 1 <= k && 0.0 < x ==> 0.0 < root(x, k) && (x < 1.0 ==> root(x, k) < 1.0)
  }

  /** The fields of one `vitter_d`. `_quant2` is not a field: it is always
      `quant1 / N` when the fast path reads it, and is recomputed there.
      `embedded` is the fallback `vitter_a`, meaningful once `initA` holds. */
  datatype Sampler = Sampler(
    N: nat, n: nat, current: nat, vPrime: real,
    initA: bool, threshold: nat, quant1: nat, embedded: VitterA.Sampler)

  /** The fast-path bookkeeping: `quant1 == N - n + 1`, `threshold == 14 n`
      (in 64-bit arithmetic). */
  predicate FastPathSynced(d: Sampler) {
    d.quant1 == d.N - d.n + 1 && d.threshold == Wrap(AlphaInv * d.n)
  }

  /** After the switch to Algorithm A: the switch condition `threshold >= N`
      persists, `quant1` is stale but never below `N - n + 1`, and the parent's
      counters mirror the embedded sampler's. */
  predicate FallbackSynced(d: Sampler) {
    && d.threshold >= d.N
    && d.quant1 >= d.N - d.n + 1
    && d.embedded.N == d.N && d.embedded.n == d.n
    && VitterA.Consistent(d.embedded)
  }

  /** The invariant every `gen_skip` preserves. */
  predicate Consistent(d: Sampler) {
    && d.n <= d.N < Modulus
    && d.quant1 < Modulus && d.threshold < Modulus
    && (d.n >= 1 ==>
          && 0.0 < d.vPrime <= 1.0
          && (if d.initA then FallbackSynced(d) else FastPathSynced(d)))
  }

  /** A sampler within a session over `[0, N0)`. */
  predicate Valid(d: Sampler, N0: nat) {
    Consistent(d) && N0 < Modulus && (d.n >= 1 ==> d.current + d.N == N0)
  }

  /** `end()`: all samples have been produced. Until then there is a
      candidate left and `V'` is a usable root in `(0, 1]`. */
  function End(d: Sampler): (r: bool)
    ensures Consistent(d) && !r ==> 1 <= d.N && 0.0 < d.vPrime <= 1.0
  {
    d.n == 0
  }

  /** The constructor `vitter_d(N, n)`. It draws once for the first `V'`
      (which is `exp(-inf) == 0` when `n == 0`). */
  function Construct(N: nat, n: nat, draws: seq<real>, root: Root): (r: Result<(Sampler, seq<real>)>)
    requires N < Modulus
    requires AllUnit(draws) && RootLike(root)
    ensures n > N ==> r == Err(InvalidSampleSize)
    ensures n <= N && |draws| == 0 ==> r == Err(OutOfVariates)
    ensures n <= N && |draws| >= 1 ==> r.Ok? && r.value.1 == draws[1..]
    ensures r.Ok? ==> var d := r.value.0;
      && Valid(d, N) && d.current == 0 && !d.initA
      && d.N == N && d.n == n && (End(d) <==> n == 0)
      && (n >= 1 ==> d.quant1 == N - n + 1 && d.threshold == Wrap(n * AlphaInv))
  {
    if n > N then Err(InvalidSampleSize)
    else if |draws| == 0 then Err(OutOfVariates)
    else
      var vPrime := if n == 0 then 0.0 else root(draws[0], n);
      var d := Sampler(N, n, 0, vPrime, false, Wrap(n * AlphaInv), Wrap(N - n + 1), VitterA.Sampler(0, 0, 0, 0));
      Ok((d, draws[1..]))
  }

  /** `update_variables`: one accepted skip consumes `skip + 1` candidates and
      one sample, all in 64-bit arithmetic. */
  function UpdateVariables(d: Sampler, skip: nat): (r: Sampler)
    requires d.n >= 1 && d.N < Modulus && d.quant1 < Modulus
    ensures r.n == d.n - 1
    ensures r.current == d.current && r.vPrime == d.vPrime && r.initA == d.initA && r.embedded == d.embedded
    ensures r.N < Modulus && r.quant1 < Modulus && r.threshold < Modulus
    ensures skip < d.N ==> r.N == d.N - skip - 1
    ensures skip <= d.quant1 ==> r.quant1 == d.quant1 - skip
    ensures FastPathSynced(d) && d.n <= d.N && skip < d.quant1 ==> FastPathSynced(r) && r.n <= r.N
  {
    WrapSub(AlphaInv * d.n, AlphaInv);
    d.(N := Wrap(d.N - skip - 1), n := d.n - 1,
       quant1 := Wrap(d.quant1 - skip), threshold := Wrap(d.threshold - AlphaInv))
  }

  /** The skip a value of `V'` proposes in step D2: `floor(N (1 - V'))`.
      For `V'` in `(0, 1]` it is one of the `N` remaining candidates. */
  function Proposal(N: nat, vPrime: real): (s: int)
    requires 1 <= N && 0.0 < vPrime <= 1.0
    ensures 0 <= s < N
  {
    ProposalRange(N, vPrime);
    (N as real * (1.0 - vPrime)).Floor
  }

  /** `X = N (1 - V')` lies in `[0, N)`, so `N - X` is a positive divisor. */
  lemma ProposalRange(N: nat, vPrime: real)
    requires N >= 1 && 0.0 < vPrime <= 1.0
    ensures 0.0 <= N as real * (1.0 - vPrime) < N as real
  {
    var w := 1.0 - vPrime;
    assert N as real * w <= N as real * 1.0;
    assert N as real * w < N as real * 1.0;
  }

  /** What step D2 settles on: the skip, the real `X` it truncates, the `V'`
      that produced it, and the draws left. */
  datatype Candidate = Candidate(skip: nat, x: real, vPrime: real, rest: seq<real>)

  /** Step D2: keep redrawing `V' = root(u, n)` until the proposed skip is
      below `quant1`. The first proposal uses the current `V'`. */
  method D2(N: nat, n: nat, quant1: nat, vPrime: real, draws: seq<real>, root: Root) returns (r: Result<Candidate>)
    requires N >= 1 && n >= 1
    requires 0.0 < vPrime <= 1.0
    requires AllUnit(draws) && RootLike(root)
    ensures r.Err? ==> r.error == OutOfVariates
    ensures r.Err? ==> Proposal(N, vPrime) >= quant1 && forall k :: 0 <= k < |draws| ==> Proposal(N, root(draws[k], n)) >= quant1
    ensures r.Ok? ==> var c := r.value;
      && 0.0 < c.vPrime <= 1.0
      && c.skip < quant1 && c.skip == Proposal(N, c.vPrime)
      && c.x == N as real * (1.0 - c.vPrime) && 0.0 <= c.x < N as real
      && IsSuffix(c.rest, draws)
    // the loop stops at the first admissible proposal
    ensures r.Ok? ==> var used := |draws| - |r.value.rest|;
      && (used == 0 <==> Proposal(N, vPrime) < quant1)
      && (used == 0 ==> r.value.vPrime == vPrime)
      && (used > 0 ==> r.value.vPrime == root(draws[used - 1], n))
      && (forall k :: 0 <= k < used - 1 ==> Proposal(N, root(draws[k], n)) >= quant1)
  {
    var v := vPrime;
    var i := 0;
    while Proposal(N, v) >= quant1
      invariant 0 <= i <= |draws|
      invariant 0.0 < v <= 1.0
      invariant i == 0 ==> v == vPrime
      invariant i > 0 ==> v == root(draws[i - 1], n) && Proposal(N, vPrime) >= quant1
      invariant forall k :: 0 <= k < i - 1 ==> Proposal(N, root(draws[k], n)) >= quant1
      decreases |draws| - i
    {
      if i == |draws| {
        return Err(OutOfVariates);
      }
      v := root(draws[i], n);
      i := i + 1;
    }
    var x := N as real * (1.0 - v);
    ProposalRange(N, v);
    r := Ok(Candidate(x.Floor, x, v, draws[i..]));
  }

  /** The reference value of the D4 product: the ratios `top / bottom` for
      `top` from `from` down to `limit + 1`, `bottom` counting down with it.
      The requirement says every divisor is at least one. */
  function Ratio(from: int, limit: int, bottom: int): real
    requires from > limit ==> bottom >= from - limit
    decreases from - limit
  {
    if from <= limit then 1.0
    else Fraction(from, bottom) * Ratio(from - 1, limit, bottom - 1)
  }

  /** `div_as_double(top, bottom)`: one factor of the D4 product, with a
      positive divisor. */
  function Fraction(top: int, bottom: int): (f: real)
    requires bottom >= 1
    ensures bottom <= top ==> f >= 1.0
  {
    assert bottom <= top ==> top as real / bottom as real >= 1.0;
    top as real / bottom as real
  }

  lemma ProductAtLeastOne(f: real, p: real)
    requires 1.0 <= f && 1.0 <= p
    ensures 1.0 <= f * p
  {
    assert f * 1.0 <= f * p;
  }

  /** The recursive case of `Ratio`, as a fact to call on. */
  lemma RatioUnfold(from: int, limit: int, bottom: int)
    requires from > limit && bottom >= from - limit
    ensures Ratio(from, limit, bottom) == Fraction(from, bottom) * Ratio(from - 1, limit, bottom - 1)
  {
  }

  /** When every numerator is at least its denominator the product is at
      least one. */
  lemma {:induction false} RatioAtLeastOne(from: int, limit: int, bottom: int)
    requires from > limit ==> bottom >= from - limit
    requires bottom <= from
    ensures Ratio(from, limit, bottom) >= 1.0
    decreases from - limit
  {
    if from > limit {
      RatioAtLeastOne(from - 1, limit, bottom - 1);
      RatioUnfold(from, limit, bottom);
      ProductAtLeastOne(Fraction(from, bottom), Ratio(from - 1, limit, bottom - 1));
    }
  }

  lemma GrowingFactor(y: real, p: real)
    requires 0.0 <= y && 1.0 <= p
    ensures y <= y * p
  {
    assert y * 1.0 <= y * p;
  }

  /** The D4 loop as an accumulating recursion: `y` times the factors still
      to come. */
  function Accumulate(y: real, top: int, limit: int, bottom: int): real
    requires top > limit ==> bottom >= top - limit
    decreases top - limit
  {
    if top <= limit then y else Accumulate(y * Fraction(top, bottom), top - 1, limit, bottom - 1)
  }

  /** The accumulated value is the starting value times the reference product. */
  lemma {:induction false} AccumulateIsRatio(y: real, top: int, limit: int, bottom: int)
    requires top > limit ==> bottom >= top - limit
    ensures Accumulate(y, top, limit, bottom) == y * Ratio(top, limit, bottom)
    decreases top - limit
  {
    if top > limit {
      AccumulateIsRatio(y * Fraction(top, bottom), top - 1, limit, bottom - 1);
      RatioUnfold(top, limit, bottom);
      var f, rest := Fraction(top, bottom), Ratio(top - 1, limit, bottom - 1);
      assert y * (f * rest) == (y * f) * rest;
    }
  }

  /** The `for` loop of step D4: multiplies `y` by `top / bottom` while
      `top > limit`, lowering both. Every divisor is at least one and
      `bottom` never wraps below zero. */
  method RatioLoop(from: nat, limit: nat, bottom0: nat, y: real) returns (y': real, steps: nat)
    requires from > limit ==> bottom0 >= from - limit
    ensures steps == if from > limit then from - limit else 0
    ensures y' == y * Ratio(from, limit, bottom0)
  {
    var top := from;
    var bottom := bottom0;
    y' := y;
    steps := 0;
    while top > limit
      invariant top <= from && (top >= limit || top == from)
      invariant top > limit ==> bottom >= top - limit
      invariant bottom0 - bottom == from - top
      invariant steps == from - top
      invariant Accumulate(y', top, limit, bottom) == Accumulate(y, from, limit, bottom0)
      decreases top
    {
      y' := y' * Fraction(top, bottom);
      bottom := bottom - 1;
      top := top - 1;
      steps := steps + 1;
    }
    AccumulateIsRatio(y, from, limit, bottom0);
  }

  /** Step D4's product. Its bounds depend on whether `n - 1 > S`; with
      `S <= N - n` every divisor is at least one in both cases, and the
      correction never lowers `y`. */
  method D4Product(N: nat, n: nat, skip: nat, quant1: nat, y: real) returns (y': real, steps: nat)
    requires 2 <= n <= N && quant1 == N - n + 1 && skip < quant1
    ensures steps == if n - 1 > skip then (if skip == 0 then 0 else skip - 1) else n - 2
    ensures n - 1 > skip ==> y' == y * Ratio(N - 1, N - skip, N - n)
    ensures n - 1 <= skip ==> y' == y * Ratio(N - 1, quant1, N - skip - 1)
    ensures 0.0 <= y ==> y <= y'
  {
    var bottom: nat;
    var limit: nat;
    if n - 1 > skip {
      bottom := N - n;
      limit := N - skip;
    } else {
      bottom := N - skip - 1;
      limit := quant1;
    }
    y', steps := RatioLoop(N - 1, limit, bottom, y);
    RatioAtLeastOne(N - 1, limit, bottom);
    if 0.0 <= y {
      GrowingFactor(y, Ratio(N - 1, limit, bottom));
    }
  }

  /** `y = u / quant2` with `quant2 = quant1 / N`, drawn at the start of step D3. */
  function D3Y(u: real, quant1: nat, N: nat): (y: real)
    requires 0.0 < u && 1 <= quant1 && 1 <= N
    ensures 0.0 < y
  {
    var quant2 := quant1 as real / N as real;
    u / quant2
  }

  /** The right-hand side of the D3 test, `((quant1 - S) / quant1) N / (N - X)`. */
  function D3Rhs(quant1: nat, N: nat, skip: nat, x: real): (rhs: real)
    requires skip < quant1 && 1 <= N && 0.0 <= x < N as real
    ensures 0.0 < rhs
  {
    var a := (quant1 - skip) as real / quant1 as real;
    assert 0.0 < a * (N as real);
    a * (N as real) / (N as real - x)
  }

  /** An accepted D3 test sets `V' = lhs / rhs`, which lies in `(0, 1]`. */
  lemma QuotientInUnit(a: real, b: real)
    requires 0.0 < a <= b
    ensures 0.0 < a / b <= 1.0
  {
  }

  /** What one call of `gen_skip` yields. */
  datatype Skipped = Skipped(skip: nat, next: Sampler, rest: seq<real>)

  /** One pass of the fast path's outer loop: accepted with a skip, rejected
      with a fresh `V'`, or stopped because the draws ran out. */
  datatype Pass = Accepted(result: Skipped) | Rejected(vPrime: real, rest: seq<real>) | Exhausted

  /** One pass of steps D2-D4 from the value `vPrime` of `V'`. An accepted skip
      is the D2 candidate, so it is below `quant1` and comes from `vPrime` or
      from one of the draws; the new `V'` is `lhs / rhs`
      after D3 and a fresh root after D4, both in `(0, 1]`. A pass that does
      not stop consumes at least one draw. */
  method FastPass(d: Sampler, vPrime: real, draws: seq<real>, root: Root) returns (p: Pass)
    requires Consistent(d) && d.n > 1 && d.threshold < d.N
    requires 0.0 < vPrime <= 1.0
    requires AllUnit(draws) && RootLike(root)
    ensures p.Accepted? ==> var g := p.result;
      && g.skip < d.quant1
      && 0.0 < g.next.vPrime <= 1.0
      && g.next == UpdateVariables(d.(vPrime := g.next.vPrime), g.skip)
      && IsSuffix(g.rest, draws)
    // the skip is the one D2 proposed, unchanged by D3 and D4: from the
    // incoming `V'` when that is admissible, otherwise from a redraw
    ensures p.Accepted? && Proposal(d.N, vPrime) < d.quant1 ==> p.result.skip == Proposal(d.N, vPrime)
    ensures p.Accepted? && Proposal(d.N, vPrime) >= d.quant1 ==>
      exists k :: 0 <= k < |draws| && p.result.skip == Proposal(d.N, root(draws[k], d.n))
    // a rejection's fresh `V'` is the root of one of the draws
    ensures p.Rejected? ==> exists k :: 0 <= k < |draws| && p.vPrime == root(draws[k], d.n)
    ensures p.Rejected? ==>
      && 0.0 < p.vPrime < 1.0
      && IsSuffix(p.rest, draws) && |p.rest| < |draws| && AllUnit(p.rest)
  {
    // Step D2
    var c := D2(d.N, d.n, d.quant1, vPrime, draws, root);
    if c.Err? {
      return Exhausted;
    }
    var s, x, ds := c.value.skip, c.value.x, c.value.rest;
    ghost var used := |draws| - |ds|;
    if used > 0 {
      assert s == Proposal(d.N, root(draws[used - 1], d.n));
    }
    if |ds| == 0 {
      return Exhausted;
    }
    SuffixOfSuffix(ds[1..], ds, draws);
    var y := D3Y(ds[0], d.quant1, d.N);
    ds := ds[1..];
    // Step D3
    var lhs := root(y, d.n - 1);
    var rhs := D3Rhs(d.quant1, d.N, s, x);
    if lhs <= rhs {
      QuotientInUnit(lhs, rhs);
      return Accepted(Skipped(s, UpdateVariables(d.(vPrime := lhs / rhs), s), ds));
    }
    // Step D4
    var y', _ := D4Product(d.N, d.n, s, d.quant1, y);
    if |ds| == 0 {
      return Exhausted;
    }
    SuffixOfSuffix(ds[1..], ds, draws);
    if root(y', d.n - 1) <= (d.N as real) / (d.N as real - x) {
      var next := UpdateVariables(d.(vPrime := root(ds[0], d.n - 1)), s);
      return Accepted(Skipped(s, next, ds[1..]));
    }
    assert ds[0] == draws[|draws| - |ds|];
    return Rejected(root(ds[0], d.n), ds[1..]);
  }

  /** An accepted fast-path skip keeps the fast-path bookkeeping in step. */
  lemma FastStepConsistent(d: Sampler, vPrime: real, skip: nat)
    requires Consistent(d) && d.n > 1 && !d.initA
    requires 0.0 < vPrime <= 1.0 && skip < d.quant1
    ensures var next := UpdateVariables(d.(vPrime := vPrime), skip);
      && Consistent(next) && !next.initA
      && next.n == d.n - 1 && next.current == d.current
      && next.N == d.N - skip - 1
  {
  }

  /** The fast path of `gen_skip`: passes of steps D2-D4 until one accepts.
      The accepted skip satisfies `S <= N - n`. */
  method FastPath(d: Sampler, draws: seq<real>, root: Root) returns (r: Result<Skipped>)
    requires Consistent(d) && d.n > 1 && d.threshold < d.N
    requires AllUnit(draws) && RootLike(root)
    ensures r.Err? ==> r.error == OutOfVariates
    ensures r.Ok? ==> var g := r.value;
      && g.skip < d.quant1 && g.skip <= d.N - d.n
      && 0.0 < g.next.vPrime <= 1.0
      && g.next == UpdateVariables(d.(vPrime := g.next.vPrime), g.skip)
      && IsSuffix(g.rest, draws)
    ensures r.Ok? ==> var g := r.value;
      && Consistent(g.next) && !g.next.initA
      && g.next.n == d.n - 1 && g.next.current == d.current
      && g.next.N == d.N - g.skip - 1
    // the skip is D2's proposal from the incoming `V'` or from a redraw
    ensures r.Ok? ==>
      (r.value.skip == Proposal(d.N, d.vPrime) ||
       exists k :: 0 <= k < |draws| && r.value.skip == Proposal(d.N, root(draws[k], d.n)))
  {
    var vPrime := d.vPrime;
    var ds := draws;
    while true
      invariant 0.0 < vPrime <= 1.0
      invariant AllUnit(ds) && IsSuffix(ds, draws)
      invariant vPrime == d.vPrime || exists k :: 0 <= k < |draws| && vPrime == root(draws[k], d.n)
      decreases |ds|
    {
      var p := FastPass(d, vPrime, ds, root);
      match p
      case Exhausted =>
        return Err(OutOfVariates);
      case Accepted(g) =>
        SuffixOfSuffix(g.rest, ds, draws);
        if Proposal(d.N, vPrime) >= d.quant1 {
          ghost var k :| 0 <= k < |ds| && g.skip == Proposal(d.N, root(ds[k], d.n));
          assert ds[k] == draws[|draws| - |ds| + k];
        }
        FastStepConsistent(d, g.next.vPrime, g.skip);
        return Ok(g);
      case Rejected(v, rest) =>
        SuffixOfSuffix(rest, ds, draws);
        ghost var k :| 0 <= k < |ds| && v == root(ds[k], d.n);
        assert ds[k] == draws[|draws| - |ds| + k];
        vPrime, ds := v, rest;
    }
  }

  /** `gen_skip`: the fast path while `threshold < N`, then Algorithm A, and
      the direct formula `floor(N V')` for the last sample. */
  method GenSkip(d: Sampler, draws: seq<real>, root: Root) returns (r: Result<Skipped>)
    requires Consistent(d) && AllUnit(draws) && RootLike(root)
    ensures d.n == 0 ==> r == Err(EmptySampleRequest)
    ensures r.Err? && d.n >= 1 ==> r.error == OutOfVariates
    ensures d.n == 1 ==> r.Ok? && r.value.rest == draws
    ensures d.n > 1 && d.threshold >= d.N && |draws| >= 1 ==> r.Ok? && r.value.rest == draws[1..]
    ensures r.Ok? ==> var g := r.value;
      && Consistent(g.next) && g.next.n == d.n - 1 && g.next.current == d.current
      && IsSuffix(g.rest, draws)
    // with samples to spare, the skip leaves room for them
    ensures r.Ok? && d.n > 1 ==> r.value.skip <= d.N - d.n && r.value.next.N == d.N - r.value.skip - 1
    // the last sample: below N exactly when V' is below one; quant1 - S never wraps
    ensures r.Ok? && d.n == 1 ==>
      && r.value.skip == (d.N as real * d.vPrime).Floor && r.value.skip <= d.N
      && (r.value.skip < d.N <==> d.vPrime < 1.0)
      && r.value.next.quant1 == d.quant1 - r.value.skip
    // the switch to Algorithm A happens once and is permanent
    ensures r.Ok? ==> (r.value.next.initA <==> d.initA || (d.n > 1 && d.threshold >= d.N))
    ensures r.Ok? && d.n > 1 && d.threshold >= d.N ==>
      && r.value.next.threshold == d.threshold
      && r.value.next.vPrime == d.vPrime
      && (r.value.next.n > 1 ==> r.value.next.threshold >= r.value.next.N)
  {
    if d.n == 0 {
      return Err(EmptySampleRequest);
    } else if d.n > 1 && d.threshold < d.N {
      r := FastPath(d, draws, root);
    } else if d.n > 1 {
      var built;
      r, built := Fallback(d, draws);
    } else {
      var g := LastSkip(d, draws);
      r := Ok(g);
    }
  }

  /** The branch of `gen_skip` that hands the call to the embedded
      `vitter_a`, constructing it from the current `N` and `n` on first use,
      and copies its `n` and `N` back. `built` says whether this call
      constructed it: exactly when `initA` was still false. Since `initA` is
      then set and never cleared, a session constructs it at most once. */
  method Fallback(d: Sampler, draws: seq<real>) returns (r: Result<Skipped>, built: bool)
    requires Consistent(d) && d.n > 1 && d.threshold >= d.N
    requires AllUnit(draws)
    ensures built <==> !d.initA
    ensures r.Err? <==> |draws| == 0
    ensures r.Err? ==> r.error == OutOfVariates
    ensures r.Ok? ==> var g := r.value;
      && Consistent(g.next) && g.next.initA
      && g.next.n == d.n - 1 && g.next.current == d.current
      && g.skip <= d.N - d.n && g.next.N == d.N - g.skip - 1
      && g.next.threshold == d.threshold && g.next.quant1 == d.quant1 && g.next.vPrime == d.vPrime
      && g.next.embedded.N == g.next.N && g.next.embedded.n == g.next.n
      && g.rest == draws[1..]
    // an embedded sampler built earlier is advanced, not replaced
    ensures r.Ok? && d.initA ==>
      && r.value.next.embedded.current == d.embedded.current
      && r.value.next.embedded.top == d.embedded.top - r.value.skip
  {
    var va := d.embedded;
    built := !d.initA;
    if !d.initA {
      var c := VitterA.Construct(d.N, d.n);
      va := c.value;
    }
    var g := VitterA.GenSkip(va, draws);
    if g.Err? {
      return Err(g.error), built;
    }
    var a := g.value.next;
    r := Ok(Skipped(g.value.skip, d.(N := a.N, n := a.n, initA := true, embedded := a), g.value.rest));
  }

  /** The last sample, `S = floor(N V')`, followed by `update_variables`.
      `quant1 - S` never wraps, also after the switch to Algorithm A, because
      `quant1` stays at least `N`; `N - S - 1` wraps exactly when `V' == 1`. */
  method LastSkip(d: Sampler, draws: seq<real>) returns (g: Skipped)
    requires Consistent(d) && d.n == 1
    ensures Consistent(g.next) && g.next.n == 0 && g.next.current == d.current && g.rest == draws
    ensures g.skip == (d.N as real * d.vPrime).Floor && g.skip <= d.N
    ensures g.skip < d.N <==> d.vPrime < 1.0
    ensures g.next.quant1 == d.quant1 - g.skip
    ensures g.next.initA == d.initA
  {
    ScaledFloor(d.N, d.vPrime);
    var s := (d.N as real * d.vPrime).Floor;
    g := Skipped(s, UpdateVariables(d, s), draws);
  }

  /** What one call of `next` yields. */
  datatype Emitted = Emitted(index: nat, next: Sampler, rest: seq<real>)

  /** `next()`: the index `current + S`, after which `current` moves past it.
      Before the last sample the index leaves room for the samples still to
      come; the last index is inside the population exactly when `V' < 1`. */
  method Next(d: Sampler, draws: seq<real>, root: Root, ghost N0: nat) returns (r: Result<Emitted>)
    requires Valid(d, N0) && AllUnit(draws) && RootLike(root)
    ensures d.n == 0 ==> r == Err(EmptySampleRequest)
    ensures r.Err? && d.n >= 1 ==> r.error == OutOfVariates
    ensures d.n == 1 ==> r.Ok?
    // on Algorithm A every call consumes exactly one draw and stays there
    ensures d.n > 1 && d.threshold >= d.N && |draws| >= 1 ==> r.Ok? && r.value.rest == draws[1..]
    ensures r.Ok? && d.n > 1 && d.threshold >= d.N ==>
      && r.value.next.vPrime == d.vPrime
      && (r.value.next.n > 1 ==> r.value.next.threshold >= r.value.next.N)
    ensures r.Ok? ==> var e := r.value;
      && Valid(e.next, N0) && e.next.n == d.n - 1
      && IsSuffix(e.rest, draws) && d.current <= e.index
    ensures r.Ok? && d.n > 1 ==> r.value.index + d.n <= N0 && r.value.next.current == r.value.index + 1
    ensures r.Ok? && d.n == 1 ==>
      && r.value.index == d.current + (d.N as real * d.vPrime).Floor
      && (r.value.index < N0 <==> d.vPrime < 1.0)
  {
    var g := GenSkip(d, draws, root);
    if g.Err? {
      return Err(g.error);
    }
    var e := Emit(d, g.value, N0);
    r := Ok(e);
  }

  /** The body of `next()` once `gen_skip` has returned. */
  method Emit(d: Sampler, g: Skipped, ghost N0: nat) returns (e: Emitted)
    requires Valid(d, N0) && d.n >= 1
    requires Consistent(g.next) && g.next.n == d.n - 1
    requires d.n > 1 ==> g.skip <= d.N - d.n && g.next.N == d.N - g.skip - 1
    requires d.n == 1 ==> g.skip <= d.N
    ensures Valid(e.next, N0) && e.next.n == d.n - 1 && e.rest == g.rest
    ensures e.next.(current := g.next.current) == g.next
    ensures e.index == d.current + g.skip
    ensures d.n > 1 ==> e.index + d.n <= N0 && e.next.current == e.index + 1
    ensures d.n == 1 ==> (e.index < N0 <==> g.skip < d.N)
  {
    var index := Wrap(d.current + g.skip);
    e := Emitted(index, g.next.(current := Wrap(index + 1)), g.rest);
  }

  /** The calls of `next()` before the last one: the indices they return,
      the sampler with one sample left, and the draws not consumed. */
  datatype Prefix = Prefix(indices: seq<nat>, last: Sampler, rest: seq<real>)

  /** Calls `next()` until one sample remains. On Algorithm A each call
      consumes one draw, so `n - 1` draws are enough there. */
  method Steps(d: Sampler, draws: seq<real>, root: Root, ghost N0: nat) returns (r: Result<Prefix>)
    requires Valid(d, N0) && d.n >= 1 && AllUnit(draws) && RootLike(root)
    ensures r.Err? ==> r.error == OutOfVariates
    ensures d.n == 1 ==> r.Ok?
    ensures d.n > 1 && d.threshold >= d.N && |draws| >= d.n - 1 ==> r.Ok?
    ensures r.Ok? ==> var p := r.value;
      && Valid(p.last, N0) && p.last.n == 1 && AllUnit(p.rest)
      && |p.indices| == d.n - 1 && Increasing(p.indices)
      && (forall i :: 0 <= i < |p.indices| ==> p.indices[i] < p.last.current)
    // off the fast path `V'` is never redrawn
    ensures r.Ok? && (d.n == 1 || d.threshold >= d.N) ==> r.value.last.vPrime == d.vPrime
  {
    ghost var onFallback := d.n > 1 && d.threshold >= d.N && |draws| >= d.n - 1;
    var a := d;
    var ds := draws;
    var out: seq<nat> := [];
    while a.n > 1
      invariant Valid(a, N0) && a.n >= 1
      invariant |out| + a.n == d.n
      invariant AllUnit(ds)
      invariant Increasing(out)
      invariant forall i :: 0 <= i < |out| ==> out[i] < a.current
      invariant onFallback ==> (a.n > 1 ==> a.threshold >= a.N) && |ds| + |out| == |draws|
      invariant d.threshold >= d.N ==> (a.n > 1 ==> a.threshold >= a.N) && a.vPrime == d.vPrime
      invariant d.n == 1 ==> a == d
      decreases a.n
    {
      var e := Next(a, ds, root, N0);
      if e.Err? {
        return Err(e.error);
      }
      out := out + [e.value.index];
      a := e.value.next;
      ds := e.value.rest;
    }
    r := Ok(Prefix(out, a, ds));
  }

  /** A whole session: construct, then call `next()` until `end()`. `lastRoot`
      is the `V'` the final `next()` scales the remaining population by. */
  datatype Session = Session(indices: seq<nat>, lastRoot: real)

  /** Exactly `n0` indices come out, strictly increasing; all but the last are
      inside the population, and the last is too exactly when `lastRoot < 1`.
      A session that starts on Algorithm A, or has at most one sample, needs
      no more draws than samples. */
  method Run(N0: nat, n0: nat, draws: seq<real>, root: Root) returns (r: Result<Session>)
    requires N0 < Modulus && AllUnit(draws) && RootLike(root)
    ensures n0 > N0 ==> r == Err(InvalidSampleSize)
    ensures r.Err? && n0 <= N0 ==> r.error == OutOfVariates
    // sessions whose outcome does not hinge on the D3/D4 acceptance tests
    ensures n0 <= N0 && n0 <= 1 && |draws| >= 1 ==> r.Ok?
    ensures n0 <= N0 && 2 <= n0 && Wrap(AlphaInv * n0) >= N0 && |draws| >= n0 ==> r.Ok?
    ensures r.Ok? ==> |r.value.indices| == n0 && Increasing(r.value.indices)
    ensures r.Ok? ==> forall i :: 0 <= i < n0 - 1 ==> r.value.indices[i] < N0
    ensures r.Ok? && n0 >= 1 ==>
      && 0.0 < r.value.lastRoot <= 1.0
      && r.value.indices[n0 - 1] <= N0
      && (r.value.indices[n0 - 1] < N0 <==> r.value.lastRoot < 1.0)
    // without the fast path the final `V'` is the constructor's, below one
    ensures r.Ok? && 1 <= n0 && 1 <= |draws| && (n0 == 1 || Wrap(AlphaInv * n0) >= N0) ==>
      r.value.lastRoot == root(draws[0], n0) && r.value.lastRoot < 1.0
    ensures r.Ok? && n0 == N0 && (n0 == 0 || r.value.lastRoot < 1.0) ==>
      forall i :: 0 <= i < n0 ==> r.value.indices[i] == i
  {
    var c := Construct(N0, n0, draws, root);
    if c.Err? {
      return Err(c.error);
    }
    var d := c.value.0;
    if n0 == 0 {
      return Ok(Session([], 0.0));
    }
    var p := Steps(d, c.value.1, root, N0);
    if p.Err? {
      return Err(p.error);
    }
    var last := p.value.last;
    var e := Next(last, p.value.rest, root, N0);
    var out := p.value.indices + [e.value.index];
    ScaledFloor(last.N, last.vPrime);
    assert last.current + last.N == N0;
    assert e.value.index <= N0;
    assert out[n0 - 1] == e.value.index;
    if n0 == 1 || Wrap(AlphaInv * n0) >= N0 {
      assert d.vPrime == root(draws[0], n0);
      assert last.vPrime == d.vPrime;
    }
    if last.vPrime < 1.0 && n0 == N0 {
      FullSampleIsIdentity(out, N0);
    }
    return Ok(Session(out, last.vPrime));
  }
}
